=== FILE: README.md ===
# Binary search tree with duplicate counts — a Dafny model

This project models the tree engine of `tree.h`. The engine is an unbalanced
binary search tree. Each node keeps a count of how many times its value was
added. It offers these operations:

- `add`: walk left on `<` and right on `>`. On an equal value, bump the node's
  count. On reaching an absent child, hang a new node with count 1 there.
- `remove`: search the same way. On a match, discard the matched node together
  with its entire subtree; no successor is promoted. When no node matches,
  nothing happens.
- `deleteTree`: discard the root node and everything below it.
- `printTree`: three traversal orders, selected by an integer mode. Mode 1 is
  "straight" (pre-order), 2 is "symmetric" (in-order) and 3 is "inverted"
  (post-order); any other mode behaves as mode 1.
- `printGraph`: the shape dump, drawn rotated by 90 degrees.

The model is functional. `BinaryTree.Tree` is an immutable datatype
(`Leaf | Node(value, count, left, right)`) standing for the subtree owned by one
pointer. `Leaf` is the null pointer, and so also the rootless tree left by
`deleteTree`. Each C++ routine becomes a pure function:

- `CreateNode`, `New`, `Insert`, `AddAll`, `Find`, `Remove`, `RemoveNode` and
  `Clear` are in `tree.dfy`.
- `Print` and `Graph` are in `traversal.dfy`. They return the written values and
  lines as sequences instead of writing to standard output.

Two abstractions state the properties:

- `Valid` is the search-tree invariant: left values are strictly smaller, right
  values strictly larger, and every count is at least 1.
- `Contents` is the multiset of everything added and still stored. A node
  contributes `count` copies of its value.

`properties.dfy` proves what add, remove and deleteTree do to these.
`scenario.dfy` works the demo driver's call sequence (`main.cpp`) through the model.

The element type is `int`, while the source is a template over any type with
`<` and `>`. The model uses only `<`, `>` and "neither", exactly as the source
does.

In the demo call sequence, 3 ends up with 2 (holding 1) on its left and 4 on
its right, so `remove(3)` also takes 1, 2 and 4 with it (`Scenario.Demo`,
`Scenario.PrunedShape`).

## Model

| member | source | states |
|---|---|---|
| BinaryTree.CreateNode | tree.h:159-165 | a created node is a valid tree of exactly one node that stores its value once (count 1, no children) |
| BinaryTree.New | tree.h:237-240 | the constructor's tree is valid, has one node and stores the seed value exactly once |
| BinaryTree.Find | tree.h:175-186 | the search by strict `<`/`>` ends at nothing or at a subtree of the tree (the tree itself or one hanging below it) whose root holds the sought value; on a search tree it finds a node if and only if the value is stored, and that subtree is itself a search tree |
| BinaryTree.Insert | tree.h:195-229 | an add never leaves the tree rootless, grows the value set by exactly the added value, and stores that value once more, all other stored values unchanged |
| BinaryTree.AddAll | tree.h:264-267 | a sequence of adds stores exactly the old contents plus every added value, with multiplicity |
| BinaryTree.Remove | tree.h:175-186 | what remove keeps plus the subtree the search reached is exactly the old contents (counts included), the value set only shrinks, and a search that reaches nothing leaves the tree untouched |
| BinaryTree.RemoveNode | tree.h:92-110 | releasing a node leaves its owning slot empty: no node, value or stored addition of the released subtree remains |
| BinaryTree.Clear | tree.h:254-257 | after deleteTree nothing is stored: no values, no nodes |
| TreeProperties.CountOfIsMultiplicity | tree.h:206-226 | on a search tree, the count the search reads off a node is the number of times its value is stored anywhere in the tree |
| TreeProperties.AddToEmpty | tree.h:197-201 | adding to a rootless tree gives the constructor's single valid node, with count 1 |
| TreeProperties.InsertPreservesValid | tree.h:206-225 | add keeps the search-tree invariant |
| TreeProperties.InsertPresent | tree.h:226 | adding a stored value raises exactly its count by one; the shape, the node count and every other count stay the same |
| TreeProperties.InsertAbsent | tree.h:206-225 | adding a value not stored puts one new childless count-1 node where the search ends; the node count grows by one, the value set by exactly that value, and every other count stays |
| TreeProperties.DuplicateCount | tree.h:195-229 | adding a new value k times gives one node for it, with count k |
| TreeProperties.AddAllPreservesValid | tree.h:264-267 | any sequence of adds keeps the search-tree invariant |
| TreeProperties.RemovePreservesValid | tree.h:175-186 | remove keeps the search-tree invariant |
| TreeProperties.RemoveAbsent | tree.h:177-185 | removing a value that is not stored leaves the tree unchanged |
| TreeProperties.InsertRemoveRoundTrip | tree.h:175-225 | removing a value just added as a new node gives back exactly the tree from before the add, so the add hung one new leaf and moved no existing node |
| TreeProperties.RemovePresent | tree.h:175-186 | removing v removes exactly the values of the subtree rooted at v's node (v included); every surviving value keeps its count and the invariant holds |
| TreeProperties.ReAddAfterRemove | tree.h:92-110 | a value discarded with a removed subtree comes back as a fresh node with count 1 |
| TreeProperties.RemoveRoot | tree.h:274-277 | removing the root's value empties the tree, the same as deleteTree |
| TreeProperties.ClearIdempotent | tree.h:254-257 | deleteTree leaves no root, repeating it changes nothing, and the next add seeds a single count-1 node |
| Traversal.Print | tree.h:119-151 | printTree's four mode branches as one function; it carries no ensures of its own, so that the demo's concrete prints stay cheap to evaluate, and its properties are those stated by PrintNodes, PrintValues, SymmetricIsSorted, StraightRebuilds, StraightOrder, InvertedRebuilds, InvertedOrder, TraversalsAgree and UnknownModeIsStraight |
| Traversal.PrintNodes | tree.h:119-151 | in every mode each node's value is written exactly once, so the output length is the node count |
| Traversal.PrintValues | tree.h:119-151 | in every mode the written values are exactly the stored values |
| Traversal.SymmetricIsSorted | tree.h:133-139 | on a search tree the symmetric (in-order) print is strictly ascending and lists each stored value exactly once |
| Traversal.TraversalsAgree | tree.h:123-147 | the straight, symmetric and inverted prints write the same values, equally often |
| Traversal.UnknownModeIsStraight | tree.h:119-151 | a mode other than 1, 2 or 3 prints exactly what mode 1 prints, a call without a mode prints in mode 1 (the default argument), and in such a mode a rootless tree prints nothing (ClearPrintsNothing and PrintNodes cover every mode) |
| Traversal.ClearPrintsNothing | tree.h:294-298 | after deleteTree, printTree writes no values and printGraph one blank line |
| Traversal.StraightRebuilds | tree.h:125-131 | adding the straight print's values in order to a rootless tree rebuilds the same shape: the pre-order print of a search tree determines it |
| Traversal.InvertedRebuilds | tree.h:141-146 | adding the inverted (post-order) print of a search tree, last value first, to a rootless tree rebuilds its shape (the order among its subtrees is fixed by InvertedOrder) |
| Traversal.StraightOrder | tree.h:125-131 | in the straight print a smaller value written after a larger one always lies below it: every node comes before its descendants and a left subtree before the right one; with StraightRebuilds this fixes the pre-order exactly |
| Traversal.InvertedOrder | tree.h:141-146 | in the inverted print a larger value written before a smaller one always lies below it: every node comes after its descendants and a left subtree before the right one; with InvertedRebuilds this fixes the post-order exactly |
| Traversal.RemoveRestores | tree.h:175-186 | removing v and adding back the straight print of the branch the search reached rebuilds the original shape: remove nulls only the one slot holding v's node and every other node stays where it was |
| Traversal.Graph | tree.h:64-81 | the dump has one line per node plus one blank line per absent child, and starts and ends with a blank line |
| Traversal.GraphIsReversedSymmetric | tree.h:64-81 | read top to bottom, the dump's node lines list the values in the reverse of the symmetric print |
| Traversal.GraphBlanks | tree.h:74-77 | the dump has exactly one blank line per absent child, which is the node count plus one |
| Scenario.Demo | main.cpp:21-54 | seeding 7 and adding 5,3,5,7,9,2,1,10,8,6,4 gives a valid tree whose symmetric print is 1..10, with 5 and 7 counted twice; remove(3) leaves 5..10; deleteTree leaves nothing to print |
| Scenario.BuiltStraight | main.cpp:37-38 | the straight print of the demo tree is 7 5 3 2 1 4 6 9 8 10 |
| Scenario.BuiltInverted | main.cpp:43-44 | the inverted print of the demo tree is 1 2 4 3 6 5 8 10 9 7 |

## Left out

- Text output is left out: the `"  "` delimiter after each value, the indentation
  unit, the parenthesised count and the line ends of `printTree` and
  `printGraph`. The model returns the sequence of printed items instead.
- Memory management is left out: `new`/`delete`, nulling of pointers, the
  bottom-up order in which `removeNode` frees nodes, and the destructor. An
  immutable datatype has no dangling or shared nodes, so discarding a subtree
  is simply dropping it (`RemoveNode`).
- Recursion-depth exhaustion on a degenerate, list-shaped tree is left out. It is
  a runtime resource limit, not functional behaviour.
- Insert: `count` is unbounded here. In the source it is a C++ `int`, which
  overflows (undefined behaviour) after 2^31 - 1 adds of one value.
- Traversal.Graph: the source's `Node::printGraph` is called through a null
  `this` for absent children and for a rootless tree. That is undefined
  behaviour in C++. The model gives the evidently intended output: one blank
  line at that level.
- `Node(T)` leaves `left`, `right` and `count` uninitialised, but `createNode`
  always fills them in at once. Node construction is therefore modelled as
  total (`CreateNode`).
- The element type is `int` instead of a template parameter.

=== FILE: properties.dfy ===
/** What add, remove and deleteTree do to the search-tree invariant, to the
    stored values and to the duplicate counts. */
module TreeProperties {
  import opened BinaryTree

  /** Under the invariant, a value is stored exactly when it occurs in the
      node values. */
  lemma {:induction false} ContentsSupport(t: Tree, x: int)
    requires Valid(t)
    ensures x in Contents(t) <==> x in Values(t)
  {
    match t
    case Leaf =>
    case Node(v, c, l, r) =>
      ContentsSupport(l, x);
      ContentsSupport(r, x);
  }

  /** Under the invariant, the count the search reads off is the number of
      times the value is stored in the whole tree. */
  lemma {:induction false} CountOfIsMultiplicity(t: Tree, v: int)
    requires Valid(t)
    ensures CountOf(t, v) == Contents(t)[v]
  {
    match t
    case Leaf =>
    case Node(x, c, l, r) =>
      if v < x {
        CountOfIsMultiplicity(l, v);
        ContentsSupport(r, v);
      } else if v > x {
        CountOfIsMultiplicity(r, v);
        ContentsSupport(l, v);
      } else {
        ContentsSupport(l, v);
        ContentsSupport(r, v);
      }
  }

  /** Adding to a rootless tree gives a single node holding `v` once. */
  lemma AddToEmpty(v: int)
    ensures Insert(Leaf, v) == New(v)
    ensures Valid(Insert(Leaf, v)) && Size(Insert(Leaf, v)) == 1
    ensures Values(Insert(Leaf, v)) == {v} && CountOf(Insert(Leaf, v), v) == 1
  {
  }

  /** Adding keeps the search-tree invariant. */
  lemma {:induction false} InsertPreservesValid(t: Tree, v: int)
    requires Valid(t)
    ensures Valid(Insert(t, v))
  {
    match t
    case Leaf =>
    case Node(x, c, l, r) =>
      if v < x {
        InsertPreservesValid(l, v);
        InsertLeft(x, c, l, r, v);
      } else if v > x {
        InsertPreservesValid(r, v);
        InsertRight(x, c, l, r, v);
      }
  }

  /** One step of `InsertPreservesValid` below a node, when the add goes left. */
  lemma InsertLeft(x: int, c: nat, l: Tree, r: Tree, v: int)
    requires c >= 1 && v < x && Valid(Insert(l, v)) && Valid(r)
    requires forall y | y in Values(l) :: y < x
    requires forall y | y in Values(r) :: x < y
    ensures Valid(Insert(Node(x, c, l, r), v))
  {
    var l' := Insert(l, v);
    forall y | y in Values(l')
      ensures y < x
    {
    }
    ValidNode(x, c, l', r);
  }

  /** One step of `InsertPreservesValid` below a node, when the add goes right. */
  lemma InsertRight(x: int, c: nat, l: Tree, r: Tree, v: int)
    requires c >= 1 && x < v && Valid(l) && Valid(Insert(r, v))
    requires forall y | y in Values(l) :: y < x
    requires forall y | y in Values(r) :: x < y
    ensures Valid(Insert(Node(x, c, l, r), v))
  {
    var r' := Insert(r, v);
    forall y | y in Values(r')
      ensures x < y
    {
    }
    ValidNode(x, c, l, r');
  }

  /** The invariant of a node, from the invariant of its parts. */
  lemma ValidNode(x: int, c: nat, l: Tree, r: Tree)
    requires c >= 1 && Valid(l) && Valid(r)
    requires forall y | y in Values(l) :: y < x
    requires forall y | y in Values(r) :: x < y
    ensures Valid(Node(x, c, l, r))
  {
  }

  /** Adding a value already present bumps that node's count by one and
      changes nothing else: same shape, same values, every other count the
      same. */
  lemma {:induction false} InsertPresent(t: Tree, v: int)
    requires Valid(t) && v in Values(t)
    ensures Skeleton(Insert(t, v)) == Skeleton(t)
    ensures Size(Insert(t, v)) == Size(t)
    ensures CountOf(Insert(t, v), v) == CountOf(t, v) + 1
    ensures forall u | u != v :: CountOf(Insert(t, v), u) == CountOf(t, u)
  {
    InsertSkeleton(t, v);
    InsertCounts(t, v);
  }

  /** Adding a stored value changes no node's place and no value. */
  lemma {:induction false} InsertSkeleton(t: Tree, v: int)
    requires Valid(t) && v in Values(t)
    ensures Skeleton(Insert(t, v)) == Skeleton(t)
    ensures Size(Insert(t, v)) == Size(t)
  {
    match t
    case Node(x, c, l, r) =>
      if v < x {
        assert v !in Values(r);
        InsertSkeleton(l, v);
        assert Insert(t, v) == Node(x, c, Insert(l, v), r);
      } else if v > x {
        assert v !in Values(l);
        InsertSkeleton(r, v);
        assert Insert(t, v) == Node(x, c, l, Insert(r, v));
      }
  }

  /** Counts after an add, for every value: the added one goes up by one, the
      rest stay. */
  lemma InsertCounts(t: Tree, v: int)
    requires Valid(t)
    ensures CountOf(Insert(t, v), v) == CountOf(t, v) + 1
    ensures forall u | u != v :: CountOf(Insert(t, v), u) == CountOf(t, u)
  {
    InsertPreservesValid(t, v);
    CountOfIsMultiplicity(t, v);
    CountOfIsMultiplicity(Insert(t, v), v);
    forall u | u != v
      ensures CountOf(Insert(t, v), u) == CountOf(t, u)
    {
      CountOfIsMultiplicity(t, u);
      CountOfIsMultiplicity(Insert(t, v), u);
    }
  }

  /** Adding a value not present creates one new childless node with count 1
      where the search ends; the value set grows by exactly `v` and every
      existing count stays. */
  lemma {:induction false} InsertAbsent(t: Tree, v: int)
    requires Valid(t) && v !in Values(t)
    ensures Find(Insert(t, v), v) == CreateNode(v)
    ensures Size(Insert(t, v)) == Size(t) + 1
    ensures Values(Insert(t, v)) == Values(t) + {v}
    ensures CountOf(Insert(t, v), v) == 1
    ensures forall u | u != v :: CountOf(Insert(t, v), u) == CountOf(t, u)
  {
    InsertCounts(t, v);
    match t
    case Leaf =>
    case Node(x, c, l, r) =>
      if v < x {
        InsertAbsent(l, v);
      } else {
        InsertAbsent(r, v);
      }
  }

  /** Adding the same value `k` times to a tree that does not hold it leaves
      one node for it, with count `k`. */
  lemma DuplicateCount(t: Tree, v: int, k: nat)
    requires Valid(t) && v !in Values(t) && k >= 1
    ensures Valid(AddAll(t, seq(k, _ => v)))
    ensures Size(AddAll(t, seq(k, _ => v))) == Size(t) + 1
    ensures CountOf(AddAll(t, seq(k, _ => v)), v) == k
  {
    var s := seq(k, _ => v);
    assert s == [v] + seq(k - 1, _ => v);
    InsertAbsent(t, v);
    InsertPreservesValid(t, v);
    RepeatPresent(Insert(t, v), v, k - 1);
    AddAllPreservesValid(t, s);
    CountOfIsMultiplicity(AddAll(t, s), v);
    CountOfIsMultiplicity(t, v);
    ContentsSupport(t, v);
    assert multiset(s)[v] == k by {
      assert multiset(s) == multiset{}[v := k] by { RepeatMultiset(v, k); }
    }
  }

  /** `k` copies of `v` hold `v` exactly `k` times. */
  lemma {:induction false} RepeatMultiset(v: int, k: nat)
    ensures multiset(seq(k, _ => v)) == multiset{}[v := k]
  {
    if k > 0 {
      assert seq(k, _ => v) == seq(k - 1, _ => v) + [v];
      RepeatMultiset(v, k - 1);
    }
  }

  /** Adding a stored value any number of times adds no node. */
  lemma {:induction false} RepeatPresent(t: Tree, v: int, k: nat)
    requires Valid(t) && v in Values(t)
    ensures Size(AddAll(t, seq(k, _ => v))) == Size(t)
    decreases k
  {
    if k > 0 {
      var s := seq(k, _ => v);
      assert s[0] == v && s[1..] == seq(k - 1, _ => v);
      InsertSkeleton(t, v);
      InsertPreservesValid(t, v);
      RepeatPresent(Insert(t, v), v, k - 1);
      assert AddAll(t, s) == AddAll(Insert(t, v), s[1..]);
    }
  }

  /** A sequence of adds keeps the search-tree invariant. */
  lemma {:induction false} AddAllPreservesValid(t: Tree, s: seq<int>)
    requires Valid(t)
    ensures Valid(AddAll(t, s))
    decreases |s|
  {
    if s != [] {
      InsertPreservesValid(t, s[0]);
      AddAllPreservesValid(Insert(t, s[0]), s[1..]);
    }
  }

  /** Removing keeps the search-tree invariant. */
  lemma {:induction false} RemovePreservesValid(t: Tree, v: int)
    requires Valid(t)
    ensures Valid(Remove(t, v))
  {
    match t
    case Leaf =>
    case Node(x, c, l, r) =>
      if v < x {
        RemovePreservesValid(l, v);
      } else if v > x {
        RemovePreservesValid(r, v);
      }
  }

  /** Removing a value that is not stored is a silent no-op. */
  lemma RemoveAbsent(t: Tree, v: int)
    requires v !in Values(t)
    ensures Remove(t, v) == t
  {
  }

  /** Removing a value just added as a new node gives back the tree from
      before the add: the add only hung a new leaf on an absent child and left
      every existing node where it was. */
  lemma {:induction false} InsertRemoveRoundTrip(t: Tree, v: int)
    requires Valid(t) && v !in Values(t)
    ensures Remove(Insert(t, v), v) == t
  {
    match t
    case Leaf =>
    case Node(x, c, l, r) =>
      if v < x {
        InsertRemoveRoundTrip(l, v);
      } else {
        InsertRemoveRoundTrip(r, v);
      }
  }

  /** Removing `v` takes away exactly the values of the subtree rooted at
      `v`'s node; the rest keep their counts and the invariant. */
  lemma {:induction false} RemovePresent(t: Tree, v: int)
    requires Valid(t)
    ensures Valid(Remove(t, v))
    ensures Values(Remove(t, v)) == Values(t) - Values(Find(t, v))
    ensures v !in Values(Remove(t, v))
    ensures forall u | u in Values(Remove(t, v)) :: CountOf(Remove(t, v), u) == CountOf(t, u)
  {
    RemovePreservesValid(t, v);
    RemoveValues(t, v);
    forall u | u in Values(Remove(t, v))
      ensures CountOf(Remove(t, v), u) == CountOf(t, u)
    {
      CountOfIsMultiplicity(t, u);
      CountOfIsMultiplicity(Remove(t, v), u);
      ContentsSupport(Find(t, v), u);
    }
  }

  /** The values left by a remove: all but those of the branch the search
      reached, which holds `v` itself when `v` is stored. */
  lemma {:induction false} RemoveValues(t: Tree, v: int)
    requires Valid(t)
    ensures Values(Remove(t, v)) == Values(t) - Values(Find(t, v))
    ensures v !in Values(Remove(t, v))
  {
    match t
    case Leaf =>
    case Node(x, c, l, r) =>
      if v < x {
        RemoveValues(l, v);
        RemoveLeft(x, c, l, r, v);
      } else if v > x {
        RemoveValues(r, v);
        RemoveRight(x, c, l, r, v);
      }
  }

  /** One step of `RemoveValues` below a node, when the search goes left. */
  lemma RemoveLeft(x: int, c: nat, l: Tree, r: Tree, v: int)
    requires v < x
    requires forall y | y in Values(l) :: y < x
    requires forall y | y in Values(r) :: x < y
    requires Values(Remove(l, v)) == Values(l) - Values(Find(l, v))
    ensures Values(Remove(Node(x, c, l, r), v))
         == Values(Node(x, c, l, r)) - Values(Find(Node(x, c, l, r), v))
  {
    var f := Values(Find(l, v));
    forall y | y in f
      ensures y !in {x} && y !in Values(r)
    {
    }
    SubtractLeft(Values(l), {x}, Values(r), f);
  }

  /** One step of `RemoveValues` below a node, when the search goes right. */
  lemma RemoveRight(x: int, c: nat, l: Tree, r: Tree, v: int)
    requires x < v
    requires forall y | y in Values(l) :: y < x
    requires forall y | y in Values(r) :: x < y
    requires Values(Remove(r, v)) == Values(r) - Values(Find(r, v))
    ensures Values(Remove(Node(x, c, l, r), v))
         == Values(Node(x, c, l, r)) - Values(Find(Node(x, c, l, r), v))
  {
    var g := Values(Find(r, v));
    forall y | y in g
      ensures y !in {x} && y !in Values(l)
    {
    }
    SubtractRight(Values(l), {x}, Values(r), g);
  }

  /** Taking a part `f` of the left side `a` out of `a + m + b`. */
  lemma SubtractLeft(a: set<int>, m: set<int>, b: set<int>, f: set<int>)
    requires f <= a && f !! m && f !! b
    ensures (a - f) + m + b == (a + m + b) - f
  {
  }

  /** Taking a part `g` of the right side `b` out of `a + m + b`. */
  lemma SubtractRight(a: set<int>, m: set<int>, b: set<int>, g: set<int>)
    requires g <= b && g !! a && g !! m
    ensures a + m + (b - g) == (a + m + b) - g
  {
  }

  /** A value that went away with a removed subtree starts again from a fresh
      node with count 1 when it is added back. */
  lemma ReAddAfterRemove(t: Tree, v: int, u: int)
    requires Valid(t) && u in Values(Find(t, v))
    ensures CountOf(Insert(Remove(t, v), u), u) == 1
  {
    RemovePresent(t, v);
    InsertAbsent(Remove(t, v), u);
  }

  /** Removing the root's value empties the tree, exactly like deleteTree. */
  lemma RemoveRoot(t: Tree)
    requires t != Leaf
    ensures Remove(t, t.value) == Clear(t) == Leaf
  {
  }

  /** deleteTree leaves the tree rootless, a second call changes nothing,
      and the next add seeds a fresh single-node tree. */
  lemma ClearIdempotent(t: Tree, v: int)
    ensures Clear(t) == Leaf
    ensures Clear(Clear(t)) == Clear(t)
    ensures Insert(Clear(t), v) == New(v)
  {
  }

  /** Setting every count to 1 twice is the same as doing it once. */
  lemma {:induction false} SkeletonIdem(t: Tree)
    ensures Skeleton(Skeleton(t)) == Skeleton(t)
  {
    match t
    case Leaf =>
    case Node(_, _, l, r) =>
      SkeletonIdem(l);
      SkeletonIdem(r);
  }

  /** A sequence of adds split in two is the first part, then the second. */
  lemma {:induction false} AddAllAppend(t: Tree, a: seq<int>, b: seq<int>)
    ensures AddAll(t, a + b) == AddAll(AddAll(t, a), b)
    decreases |a|
  {
    if a != [] {
      assert (a + b)[0] == a[0] && (a + b)[1..] == a[1..] + b;
      AddAllAppend(Insert(t, a[0]), a[1..], b);
    } else {
      assert a + b == b;
    }
  }

  /** Values all below the root's only ever go to the left subtree. */
  lemma {:induction false} AddAllLeft(v: int, c: nat, l: Tree, r: Tree, a: seq<int>)
    requires forall x | x in a :: x < v
    ensures AddAll(Node(v, c, l, r), a) == Node(v, c, AddAll(l, a), r)
    decreases |a|
  {
    if a != [] {
      assert a[0] in a;
      assert forall x | x in a[1..] :: x in a;
      AddAllLeft(v, c, Insert(l, a[0]), r, a[1..]);
    }
  }

  /** Values all above the root's only ever go to the right subtree. */
  lemma {:induction false} AddAllRight(v: int, c: nat, l: Tree, r: Tree, a: seq<int>)
    requires forall x | x in a :: v < x
    ensures AddAll(Node(v, c, l, r), a) == Node(v, c, l, AddAll(r, a))
    decreases |a|
  {
    if a != [] {
      assert a[0] in a;
      assert forall x | x in a[1..] :: x in a;
      AddAllRight(v, c, l, Insert(r, a[0]), a[1..]);
    }
  }
}

=== FILE: scenario.dfy ===
/** The demo driver's call sequence, worked through the model: seed 7, eleven adds,
    remove 3, then deleteTree. */
module Scenario {
  import opened BinaryTree
  import opened Traversal

  /** The tree the adds build: 7 and 5 are added twice each, and 3 ends up
      with 2 (holding 1) on its left and 4 on its right. */
  const Built: Tree :=
    Node(7, 2,
      Node(5, 2,
        Node(3, 1,
          Node(2, 1, Node(1, 1, Leaf, Leaf), Leaf),
          Node(4, 1, Leaf, Leaf)),
        Node(6, 1, Leaf, Leaf)),
      Node(9, 1, Node(8, 1, Leaf, Leaf), Node(10, 1, Leaf, Leaf)))

  /** What is left once 3 goes, together with 2, 1 and 4 beneath it. */
  const Pruned: Tree :=
    Node(7, 2,
      Node(5, 2, Leaf, Node(6, 1, Leaf, Leaf)),
      Node(9, 1, Node(8, 1, Leaf, Leaf), Node(10, 1, Leaf, Leaf)))

  /** The call sequence: `Tree<int> tree(7)`, the eleven `add` calls, `remove(3)` and
      `deleteTree()`, returning the tree after each stage. */
  method Demo() returns (added: Tree, removed: Tree, cleared: Tree)
    ensures added == Built && Valid(added)
    ensures Print(added, SYMMETRIC) == [1, 2, 3, 4, 5, 6, 7, 8, 9, 10]
    ensures CountOf(added, 5) == 2 && CountOf(added, 7) == 2
    ensures removed == Pruned
    ensures Print(removed, SYMMETRIC) == [5, 6, 7, 8, 9, 10]
    ensures cleared == Leaf && Print(cleared, SYMMETRIC) == []
  {
    var t := New(7);
    Add1();
    t := Insert(t, 5);
    Add2();
    t := Insert(t, 3);
    Add3();
    t := Insert(t, 5);
    Add4();
    t := Insert(t, 7);
    Add5();
    t := Insert(t, 9);
    Add6();
    t := Insert(t, 2);
    Add7();
    t := Insert(t, 1);
    Add8();
    t := Insert(t, 10);
    Add9();
    t := Insert(t, 8);
    Add10();
    t := Insert(t, 6);
    Add11();
    t := Insert(t, 4);
    added := t;
    BuiltValid();
    BuiltSymmetric();
    BuiltCounts();
    removed := Remove(added, 3);
    PrunedShape();
    PrunedSymmetric();
    cleared := Clear(removed);
  }

  /** The built tree satisfies the search-tree invariant. */
  lemma BuiltValid()
    ensures Valid(Built)
  {
  }

  /** The three prints of the built tree. */
  lemma BuiltSymmetric()
    ensures Print(Built, SYMMETRIC) == [1, 2, 3, 4, 5, 6, 7, 8, 9, 10]
  {
  }

  lemma BuiltStraight()
    ensures Print(Built, STRAIGHT) == [7, 5, 3, 2, 1, 4, 6, 9, 8, 10]
  {
  }

  lemma BuiltInverted()
    ensures Print(Built, INVERTED) == [1, 2, 4, 3, 6, 5, 8, 10, 9, 7]
  {
  }

  /** Nodes 5 and 7 carry count 2. */
  lemma BuiltCounts()
    ensures CountOf(Built, 5) == 2 && CountOf(Built, 7) == 2
  {
  }

  /** Removing 3 from the built tree. */
  lemma PrunedShape()
    ensures Remove(Built, 3) == Pruned
  {
  }

  lemma PrunedSymmetric()
    ensures Print(Pruned, SYMMETRIC) == [5, 6, 7, 8, 9, 10]
  {
  }

  /** One lemma per `add` call of the sequence, each proved on its own. */
  lemma Add1()
    ensures Insert(Node(7, 1, Leaf, Leaf), 5)
         == Node(7, 1, Node(5, 1, Leaf, Leaf), Leaf)
  {
  }

  lemma Add2()
    ensures Insert(Node(7, 1, Node(5, 1, Leaf, Leaf), Leaf), 3)
         == Node(7, 1, Node(5, 1, Node(3, 1, Leaf, Leaf), Leaf), Leaf)
  {
  }

  lemma Add3()
    ensures Insert(Node(7, 1, Node(5, 1, Node(3, 1, Leaf, Leaf), Leaf), Leaf), 5)
         == Node(7, 1, Node(5, 2, Node(3, 1, Leaf, Leaf), Leaf), Leaf)
  {
  }

  lemma Add4()
    ensures Insert(Node(7, 1, Node(5, 2, Node(3, 1, Leaf, Leaf), Leaf), Leaf), 7)
         == Node(7, 2, Node(5, 2, Node(3, 1, Leaf, Leaf), Leaf), Leaf)
  {
  }

  lemma Add5()
    ensures Insert(Node(7, 2, Node(5, 2, Node(3, 1, Leaf, Leaf), Leaf), Leaf), 9)
         == Node(7, 2, Node(5, 2, Node(3, 1, Leaf, Leaf), Leaf), Node(9, 1, Leaf, Leaf))
  {
  }

  lemma Add6()
    ensures Insert(Node(7, 2, Node(5, 2, Node(3, 1, Leaf, Leaf), Leaf), Node(9, 1, Leaf, Leaf)), 2)
         == Node(7, 2, Node(5, 2, Node(3, 1, Node(2, 1, Leaf, Leaf), Leaf), Leaf), Node(9, 1, Leaf, Leaf))
  {
  }

  lemma Add7()
    ensures Insert(Node(7, 2, Node(5, 2, Node(3, 1, Node(2, 1, Leaf, Leaf), Leaf), Leaf), Node(9, 1, Leaf, Leaf)), 1)
         == Node(7, 2, Node(5, 2, Node(3, 1, Node(2, 1, Node(1, 1, Leaf, Leaf), Leaf), Leaf), Leaf), Node(9, 1, Leaf, Leaf))
  {
  }

  lemma Add8()
    ensures Insert(Node(7, 2, Node(5, 2, Node(3, 1, Node(2, 1, Node(1, 1, Leaf, Leaf), Leaf), Leaf), Leaf), Node(9, 1, Leaf, Leaf)), 10)
         == Node(7, 2, Node(5, 2, Node(3, 1, Node(2, 1, Node(1, 1, Leaf, Leaf), Leaf), Leaf), Leaf), Node(9, 1, Leaf, Node(10, 1, Leaf, Leaf)))
  {
  }

  lemma Add9()
    ensures Insert(Node(7, 2, Node(5, 2, Node(3, 1, Node(2, 1, Node(1, 1, Leaf, Leaf), Leaf), Leaf), Leaf), Node(9, 1, Leaf, Node(10, 1, Leaf, Leaf))), 8)
         == Node(7, 2, Node(5, 2, Node(3, 1, Node(2, 1, Node(1, 1, Leaf, Leaf), Leaf), Leaf), Leaf), Node(9, 1, Node(8, 1, Leaf, Leaf), Node(10, 1, Leaf, Leaf)))
  {
  }

  lemma Add10()
    ensures Insert(Node(7, 2, Node(5, 2, Node(3, 1, Node(2, 1, Node(1, 1, Leaf, Leaf), Leaf), Leaf), Leaf), Node(9, 1, Node(8, 1, Leaf, Leaf), Node(10, 1, Leaf, Leaf))), 6)
         == Node(7, 2, Node(5, 2, Node(3, 1, Node(2, 1, Node(1, 1, Leaf, Leaf), Leaf), Leaf), Node(6, 1, Leaf, Leaf)), Node(9, 1, Node(8, 1, Leaf, Leaf), Node(10, 1, Leaf, Leaf)))
  {
  }

  lemma Add11()
    ensures Insert(Node(7, 2, Node(5, 2, Node(3, 1, Node(2, 1, Node(1, 1, Leaf, Leaf), Leaf), Leaf), Node(6, 1, Leaf, Leaf)), Node(9, 1, Node(8, 1, Leaf, Leaf), Node(10, 1, Leaf, Leaf))), 4)
         == Node(7, 2, Node(5, 2, Node(3, 1, Node(2, 1, Node(1, 1, Leaf, Leaf), Leaf), Node(4, 1, Leaf, Leaf)), Node(6, 1, Leaf, Leaf)), Node(9, 1, Node(8, 1, Leaf, Leaf), Node(10, 1, Leaf, Leaf)))
  {
  }
}

=== FILE: traversal.dfy ===
/** The printing side of the tree: the three traversal orders of printTree and
    the rotated structural dump of printGraph, each as the sequence of items
    it writes instead of text on standard output. */
module Traversal {
  import opened BinaryTree
  import opened TreeProperties

  /** Node first, then left subtree, then right subtree (pre-order). */
  const STRAIGHT: int := 1
  /** Left subtree, node, right subtree (in-order). */
  const SYMMETRIC: int := 2
  /** Left subtree, right subtree, node last (post-order). */
  const INVERTED: int := 3

  /** The values `print` writes for the subtree `t` in the given mode, counts
      left out. Any mode other than the three above restarts the same node in
      the straight mode, which is also the mode when none is given. */
  function Print(t: Tree, mode: int := STRAIGHT): seq<int>
    decreases t, if mode in {STRAIGHT, SYMMETRIC, INVERTED} then 0 else 1
  {
    match t
    case Leaf => []
    case Node(v, _, l, r) =>
      if mode == STRAIGHT then [v] + Print(l, mode) + Print(r, mode)
      else if mode == SYMMETRIC then Print(l, mode) + [v] + Print(r, mode)
      else if mode == INVERTED then Print(l, mode) + Print(r, mode) + [v]
      else Print(t, STRAIGHT)
  }

  /** Whatever the mode, every node's value is written exactly once. */
  lemma {:induction false} PrintNodes(t: Tree, mode: int)
    ensures multiset(Print(t, mode)) == Nodes(t)
    ensures |Print(t, mode)| == Size(t)
    decreases t, if mode in {STRAIGHT, SYMMETRIC, INVERTED} then 0 else 1
  {
    match t
    case Leaf =>
    case Node(v, _, l, r) =>
      if mode in {STRAIGHT, SYMMETRIC, INVERTED} {
        PrintNodes(l, mode);
        PrintNodes(r, mode);
      } else {
        PrintNodes(t, STRAIGHT);
      }
  }

  /** Every mode writes exactly the stored values. */
  lemma PrintValues(t: Tree, mode: int)
    ensures forall x :: x in Print(t, mode) <==> x in Values(t)
  {
    PrintNodes(t, mode);
    forall x
      ensures x in Print(t, mode) <==> x in Values(t)
    {
      assert x in Print(t, mode) <==> x in multiset(Print(t, mode));
      NodesValues(t, x);
    }
  }

  /** A value occurs among the nodes exactly when it is a node value. */
  lemma {:induction false} NodesValues(t: Tree, x: int)
    ensures x in Nodes(t) <==> x in Values(t)
  {
    match t
    case Leaf =>
    case Node(_, _, l, r) =>
      NodesValues(l, x);
      NodesValues(r, x);
  }

  /** Every element is smaller than every later one. */
  predicate StrictlyAscending(s: seq<int>)
  {
    forall i, j | 0 <= i < j < |s| :: s[i] < s[j]
  }

  /** On a search tree the symmetric print is strictly ascending and lists
      every stored value exactly once. */
  lemma {:induction false} SymmetricIsSorted(t: Tree)
    requires Valid(t)
    ensures StrictlyAscending(Print(t, SYMMETRIC))
    ensures forall x | x in Values(t) :: multiset(Print(t, SYMMETRIC))[x] == 1
  {
    match t
    case Leaf =>
    case Node(v, _, l, r) =>
      SymmetricIsSorted(l);
      SymmetricIsSorted(r);
      var a, b := Print(l, SYMMETRIC), Print(r, SYMMETRIC);
      PrintValues(l, SYMMETRIC);
      PrintValues(r, SYMMETRIC);
      var s := a + [v] + b;
      assert Print(t, SYMMETRIC) == s;
      JoinAscending(a, v, b);
      PrintValues(t, SYMMETRIC);
      OnceEach(s);
  }

  /** Two ascending runs joined around a value that separates them form one
      ascending run. */
  lemma JoinAscending(a: seq<int>, v: int, b: seq<int>)
    requires StrictlyAscending(a) && StrictlyAscending(b)
    requires forall x | x in a :: x < v
    requires forall x | x in b :: v < x
    ensures StrictlyAscending(a + [v] + b)
  {
    var s := a + [v] + b;
    forall i, j | 0 <= i < j < |s|
      ensures s[i] < s[j]
    {
      if j < |a| {
        assert s[i] == a[i] && s[j] == a[j];
      } else if i < |a| {
        assert s[i] == a[i] && a[i] in a;
        if j > |a| {
          assert s[j] == b[j - |a| - 1] && b[j - |a| - 1] in b;
        }
      } else if i == |a| {
        assert s[j] == b[j - |a| - 1] && b[j - |a| - 1] in b;
      } else {
        assert s[i] == b[i - |a| - 1] && s[j] == b[j - |a| - 1];
      }
    }
  }

  /** A strictly ascending sequence holds each of its elements once. */
  lemma {:induction false} OnceEach(s: seq<int>)
    requires StrictlyAscending(s)
    ensures forall x | x in s :: multiset(s)[x] == 1
    decreases |s|
  {
    if s != [] {
      OnceEach(s[1..]);
      assert s == [s[0]] + s[1..];
      assert s[0] !in s[1..];
    }
  }

  /** The three orders write the same values, each as often. */
  lemma TraversalsAgree(t: Tree)
    ensures multiset(Print(t, STRAIGHT)) == multiset(Print(t, SYMMETRIC))
    ensures multiset(Print(t, INVERTED)) == multiset(Print(t, SYMMETRIC))
  {
    PrintNodes(t, STRAIGHT);
    PrintNodes(t, SYMMETRIC);
    PrintNodes(t, INVERTED);
  }

  /** An unrecognised mode prints exactly what the straight mode prints, as
      does a call that gives no mode, and a rootless tree prints nothing in
      any mode. */
  lemma UnknownModeIsStraight(t: Tree, mode: int)
    requires mode !in {STRAIGHT, SYMMETRIC, INVERTED}
    ensures Print(t, mode) == Print(t, STRAIGHT)
    ensures Print(t) == Print(t, STRAIGHT)
    ensures Print(Leaf, mode) == []
  {
  }

  /** After deleteTree both printTree and printGraph show an empty tree: no
      values, and a single blank line for the absent root. */
  lemma ClearPrintsNothing(t: Tree, mode: int)
    ensures Print(Clear(t), mode) == []
    ensures Graph(Clear(t), 0) == [Blank(0)]
  {
  }

  /** Adding the values of the straight print, in order, to a rootless tree
      rebuilds the shape of a search tree: the straight print determines it. */
  lemma {:induction false} StraightRebuilds(t: Tree)
    requires Valid(t)
    ensures AddAll(Leaf, Print(t, STRAIGHT)) == Skeleton(t)
  {
    match t
    case Leaf =>
    case Node(v, _, l, r) =>
      var a, b := Print(l, STRAIGHT), Print(r, STRAIGHT);
      PrintValues(l, STRAIGHT);
      PrintValues(r, STRAIGHT);
      assert Print(t, STRAIGHT) == [v] + a + b;
      AddAllAppend(Leaf, [v] + a, b);
      AddAllAppend(Leaf, [v], a);
      assert AddAll(Leaf, [v]) == Node(v, 1, Leaf, Leaf) by {
        assert [v][1..] == [];
      }
      AddAllLeft(v, 1, Leaf, Leaf, a);
      AddAllRight(v, 1, AddAll(Leaf, a), Leaf, b);
      StraightRebuilds(l);
      StraightRebuilds(r);
  }

  /** Adding the values of the inverted print in reverse order to a rootless
      tree rebuilds the shape of a search tree: read backwards, the post-order
      print is the node, then its right subtree, then its left subtree, so it
      determines the tree as the straight print does. */
  lemma {:induction false} InvertedRebuilds(t: Tree)
    requires Valid(t)
    ensures AddAll(Leaf, Reverse(Print(t, INVERTED))) == Skeleton(t)
  {
    match t
    case Leaf =>
    case Node(v, _, l, r) =>
      var a, b := Reverse(Print(l, INVERTED)), Reverse(Print(r, INVERTED));
      assert Reverse(Print(t, INVERTED)) == [v] + b + a by {
        assert Print(t, INVERTED) == (Print(l, INVERTED) + Print(r, INVERTED)) + [v];
        ReverseAppend(Print(l, INVERTED) + Print(r, INVERTED), [v]);
        ReverseAppend(Print(l, INVERTED), Print(r, INVERTED));
        assert Reverse([v]) == [v] by {
          assert [v][1..] == [];
        }
      }
      PrintValues(l, INVERTED);
      PrintValues(r, INVERTED);
      ReverseValues(Print(l, INVERTED));
      ReverseValues(Print(r, INVERTED));
      AddAllAppend(Leaf, [v] + b, a);
      AddAllAppend(Leaf, [v], b);
      assert AddAll(Leaf, [v]) == Node(v, 1, Leaf, Leaf) by {
        assert [v][1..] == [];
      }
      AddAllRight(v, 1, Leaf, Leaf, b);
      AddAllLeft(v, 1, Leaf, AddAll(Leaf, b), a);
      InvertedRebuilds(l);
      InvertedRebuilds(r);
  }

  /** Whenever a smaller value is written after a larger one, the smaller
      value lies in the branch below the larger: nodes come before their
      descendants, and a right-subtree value never precedes a left-subtree
      value of the same node. */
  predicate AncestorFirst(t: Tree, s: seq<int>)
  {
    forall i, j | 0 <= i < j < |s| && s[j] < s[i] :: s[j] in Values(Find(t, s[i]))
  }

  /** Whenever a smaller value is written after a larger one, the larger
      value lies in the branch below the smaller: nodes come after their
      descendants, and a right-subtree value never precedes a left-subtree
      value of the same node. */
  predicate DescendantFirst(t: Tree, s: seq<int>)
  {
    forall i, j | 0 <= i < j < |s| && s[j] < s[i] :: s[i] in Values(Find(t, s[j]))
  }

  /** The straight print writes every node before its descendants, and the
      left subtree before the right one. */
  lemma {:induction false} StraightOrder(t: Tree)
    requires Valid(t)
    ensures AncestorFirst(t, Print(t, STRAIGHT))
  {
    match t
    case Leaf =>
    case Node(x, c, l, r) =>
      StraightOrder(l);
      StraightOrder(r);
      PrintValues(l, STRAIGHT);
      PrintValues(r, STRAIGHT);
      assert Print(t, STRAIGHT) == [x] + Print(l, STRAIGHT) + Print(r, STRAIGHT);
      PreOrderJoin(x, c, l, r, Print(l, STRAIGHT), Print(r, STRAIGHT));
  }

  /** One step of `StraightOrder`: a node followed by the orders of its two
      subtrees. */
  lemma PreOrderJoin(x: int, c: nat, l: Tree, r: Tree, a: seq<int>, b: seq<int>)
    requires Valid(Node(x, c, l, r))
    requires AncestorFirst(l, a) && AncestorFirst(r, b)
    requires forall y | y in a :: y in Values(l)
    requires forall y | y in b :: y in Values(r)
    ensures AncestorFirst(Node(x, c, l, r), [x] + a + b)
  {
    var s := [x] + a + b;
    forall i, j | 0 <= i < j < |s| && s[j] < s[i]
      ensures s[j] in Values(Find(Node(x, c, l, r), s[i]))
    {
      PreOrderPair(x, c, l, r, a, b, i, j);
    }
  }

  /** One pair of positions of `PreOrderJoin`. */
  lemma PreOrderPair(x: int, c: nat, l: Tree, r: Tree, a: seq<int>, b: seq<int>, i: int, j: int)
    requires Valid(Node(x, c, l, r))
    requires AncestorFirst(l, a) && AncestorFirst(r, b)
    requires forall y | y in a :: y in Values(l)
    requires forall y | y in b :: y in Values(r)
    requires 0 <= i < j < 1 + |a| + |b| && ([x] + a + b)[j] < ([x] + a + b)[i]
    ensures ([x] + a + b)[j] in Values(Find(Node(x, c, l, r), ([x] + a + b)[i]))
  {
    var t, s := Node(x, c, l, r), [x] + a + b;
    if i == 0 {
      assert Find(t, x) == t;
    } else if i <= |a| {
      assert s[i] == a[i - 1] && a[i - 1] in a;
      assert Find(t, s[i]) == Find(l, s[i]);
    } else {
      assert s[i] == b[i - 1 - |a|] && b[i - 1 - |a|] in b;
      assert Find(t, s[i]) == Find(r, s[i]);
    }
    if j <= |a| {
      assert s[j] == a[j - 1] && a[j - 1] in a;
    } else {
      assert s[j] == b[j - 1 - |a|] && b[j - 1 - |a|] in b;
    }
  }

  /** The inverted print writes every node after its descendants, and the
      left subtree before the right one. */
  lemma {:induction false} InvertedOrder(t: Tree)
    requires Valid(t)
    ensures DescendantFirst(t, Print(t, INVERTED))
  {
    match t
    case Leaf =>
    case Node(x, c, l, r) =>
      InvertedOrder(l);
      InvertedOrder(r);
      PrintValues(l, INVERTED);
      PrintValues(r, INVERTED);
      assert Print(t, INVERTED) == Print(l, INVERTED) + Print(r, INVERTED) + [x];
      PostOrderJoin(x, c, l, r, Print(l, INVERTED), Print(r, INVERTED));
  }

  /** One step of `InvertedOrder`: the orders of the two subtrees followed by
      their node. */
  lemma PostOrderJoin(x: int, c: nat, l: Tree, r: Tree, a: seq<int>, b: seq<int>)
    requires Valid(Node(x, c, l, r))
    requires DescendantFirst(l, a) && DescendantFirst(r, b)
    requires forall y | y in a :: y in Values(l)
    requires forall y | y in b :: y in Values(r)
    ensures DescendantFirst(Node(x, c, l, r), a + b + [x])
  {
    var t, s := Node(x, c, l, r), a + b + [x];
    forall k | 0 <= k < |a|
      ensures s[k] == a[k] && a[k] < x && Find(t, a[k]) == Find(l, a[k])
    {
      assert a[k] in a;
    }
    forall k | 0 <= k < |b|
      ensures s[k + |a|] == b[k] && x < b[k] && Find(t, b[k]) == Find(r, b[k])
    {
      assert b[k] in b;
    }
    forall i, j | 0 <= i < j < |s| && s[j] < s[i]
      ensures s[i] in Values(Find(t, s[j]))
    {
      if j == |s| - 1 {
        assert s[i] == b[i - |a|];
        assert b[i - |a|] in b;
      } else if j < |a| {
        assert s[i] == a[i] && s[j] == a[j];
      } else if i >= |a| {
        assert s[i] == b[i - |a|] && s[j] == b[j - |a|];
      }
    }
  }

  /** Removing `v` and then adding back, in straight order, the values of the
      branch it discarded rebuilds the original shape: the remove released
      only that branch and left every other node where it was. */
  lemma {:induction false} RemoveRestores(t: Tree, v: int)
    requires Valid(t)
    ensures Skeleton(AddAll(Remove(t, v), Print(Find(t, v), STRAIGHT))) == Skeleton(t)
  {
    match t
    case Leaf =>
      assert AddAll(Leaf, []) == Leaf;
    case Node(x, c, l, r) =>
      var p := Print(Find(t, v), STRAIGHT);
      PrintValues(Find(t, v), STRAIGHT);
      if v < x {
        assert Remove(t, v) == Node(x, c, Remove(l, v), r);
        AddAllLeft(x, c, Remove(l, v), r, p);
        RemoveRestores(l, v);
      } else if v > x {
        assert Remove(t, v) == Node(x, c, l, Remove(r, v));
        AddAllRight(x, c, l, Remove(r, v), p);
        RemoveRestores(r, v);
      } else {
        StraightRebuilds(t);
        SkeletonIdem(t);
      }
  }

  /** One line of printGraph: either a node's value and count or the blank
      line standing for an absent child, indented `level` steps. */
  datatype GraphLine = Blank(level: nat) | Entry(level: nat, value: int, count: nat)

  /** The lines printGraph writes for the subtree `t` at depth `level`: the
      right subtree one level deeper, then the node, then the left subtree one
      level deeper. The whole tree is drawn from level 0. */
  function Graph(t: Tree, level: nat): (g: seq<GraphLine>)
    ensures |g| == 2 * Size(t) + 1
    ensures g[0].Blank? && g[|g| - 1].Blank?
  {
    match t
    case Leaf => [Blank(level)]
    case Node(v, c, l, r) => Graph(r, level + 1) + [Entry(level, v, c)] + Graph(l, level + 1)
  }

  /** The dump lists the node values in the reverse of the symmetric print. */
  lemma {:induction false} GraphIsReversedSymmetric(t: Tree, level: nat)
    ensures EntryValues(Graph(t, level)) == Reverse(Print(t, SYMMETRIC))
  {
    match t
    case Leaf =>
      assert Graph(t, level)[1..] == [];
    case Node(v, c, l, r) =>
      GraphIsReversedSymmetric(l, level + 1);
      GraphIsReversedSymmetric(r, level + 1);
      JoinReversed(Graph(r, level + 1), Entry(level, v, c), Graph(l, level + 1),
                   Print(l, SYMMETRIC), Print(r, SYMMETRIC));
  }

  /** One step of `GraphIsReversedSymmetric`: the dump of a node is the
      right dump, the node's line and the left dump, which reverses the
      left-node-right symmetric print. */
  lemma JoinReversed(a: seq<GraphLine>, e: GraphLine, b: seq<GraphLine>, pl: seq<int>, pr: seq<int>)
    requires e.Entry?
    requires EntryValues(a) == Reverse(pr) && EntryValues(b) == Reverse(pl)
    ensures EntryValues(a + [e] + b) == Reverse(pl + [e.value] + pr)
  {
    var v := e.value;
    assert EntryValues([e]) == [v] by {
      assert [e][1..] == [];
    }
    assert Reverse([v]) == [v] by {
      assert [v][1..] == [];
    }
    calc {
      EntryValues(a + [e] + b);
      { LinesAppend(a + [e], b); LinesAppend(a, [e]); }
      Reverse(pr) + [v] + Reverse(pl);
      { ReverseAppend(pl, [v]); ReverseAppend(pl + [v], pr); }
      Reverse(pl + [v] + pr);
    }
  }

  /** The dump has one blank line for each of the `Size(t) + 1` absent
      children. */
  lemma {:induction false} GraphBlanks(t: Tree, level: nat)
    ensures Blanks(Graph(t, level)) == Size(t) + 1
  {
    match t
    case Leaf =>
      assert Graph(t, level)[1..] == [];
    case Node(v, c, l, r) =>
      var a, e, b := Graph(r, level + 1), [Entry(level, v, c)], Graph(l, level + 1);
      assert Graph(t, level) == a + e + b;
      assert Blanks(e) == 0 by {
        assert e[1..] == [];
      }
      LinesAppend(a + e, b);
      LinesAppend(a, e);
      GraphBlanks(l, level + 1);
      GraphBlanks(r, level + 1);
  }

  /** The values of the entry lines, top to bottom. */
  function EntryValues(g: seq<GraphLine>): seq<int>
  {
    if g == [] then []
    else match g[0]
      case Blank(_) => EntryValues(g[1..])
      case Entry(_, v, _) => [v] + EntryValues(g[1..])
  }

  /** The number of blank lines. */
  function Blanks(g: seq<GraphLine>): nat
  {
    if g == [] then 0
    else (if g[0].Blank? then 1 else 0) + Blanks(g[1..])
  }

  /** The elements of `s`, last first. */
  function Reverse(s: seq<int>): seq<int>
  {
    if s == [] then [] else Reverse(s[1..]) + [s[0]]
  }

  /** Entry values and blank lines of two runs of lines add up. */
  lemma {:induction false} LinesAppend(a: seq<GraphLine>, b: seq<GraphLine>)
    ensures EntryValues(a + b) == EntryValues(a) + EntryValues(b)
    ensures Blanks(a + b) == Blanks(a) + Blanks(b)
    decreases |a|
  {
    if a == [] {
      assert a + b == b;
    } else {
      assert (a + b)[0] == a[0] && (a + b)[1..] == a[1..] + b;
      LinesAppend(a[1..], b);
    }
  }

  /** Reversing keeps the elements. */
  lemma {:induction false} ReverseValues(s: seq<int>)
    ensures forall x :: x in Reverse(s) <==> x in s
    decreases |s|
  {
    if s != [] {
      ReverseValues(s[1..]);
      assert s == [s[0]] + s[1..];
    }
  }

  /** Reversing a concatenation reverses the parts and swaps them. */
  lemma {:induction false} ReverseAppend(a: seq<int>, b: seq<int>)
    ensures Reverse(a + b) == Reverse(b) + Reverse(a)
    decreases |a|
  {
    if a == [] {
      assert a + b == b;
    } else {
      assert (a + b)[0] == a[0] && (a + b)[1..] == a[1..] + b;
      ReverseAppend(a[1..], b);
    }
  }
}

=== FILE: tree.dfy ===
/** The tree engine: an unbalanced binary search tree over `int` in which every
    node keeps a count of how many times its value was added.

    A `Tree` value stands for the subtree hanging off one owning pointer, with
    `Leaf` for the null pointer; the state of a whole tree object is the subtree
    hanging off its root pointer, so `Leaf` is also the rootless tree. */
module BinaryTree {

  /** A node owns its two subtrees; `count` is the number of times `value` was
      added. It starts at 1 and is only ever incremented, so it is never
      negative. */
  datatype Tree = Leaf | Node(value: int, count: nat, left: Tree, right: Tree)

  /** The values held by the nodes of `t`. */
  function Values(t: Tree): set<int>
  {
    match t
    case Leaf => {}
    case Node(v, _, l, r) => Values(l) + {v} + Values(r)
  }

  /** Every addition that is still stored in `t`: a node contributes `count`
      copies of its value. */
  function Contents(t: Tree): multiset<int>
  {
    match t
    case Leaf => multiset{}
    case Node(v, c, l, r) => Contents(l) + multiset{}[v := c] + Contents(r)
  }

  /** The node values of `t`, one copy per node (counts ignored). */
  function Nodes(t: Tree): multiset<int>
  {
    match t
    case Leaf => multiset{}
    case Node(v, _, l, r) => Nodes(l) + multiset{v} + Nodes(r)
  }

  /** The number of nodes of `t`. */
  function Size(t: Tree): nat
  {
    match t
    case Leaf => 0
    case Node(_, _, l, r) => Size(l) + 1 + Size(r)
  }

  /** The search-tree invariant: every value in a left subtree is strictly
      smaller than its node's value, every value in a right subtree strictly
      larger (so no two nodes hold the same value), and every count is at
      least 1. */
  predicate Valid(t: Tree)
  {
    match t
    case Leaf => true
    case Node(v, c, l, r) =>
      && c >= 1
      && Valid(l)
      && Valid(r)
      && (forall x | x in Values(l) :: x < v)
      && (forall x | x in Values(r) :: v < x)
  }

  /** `s` is `t` itself or a subtree hanging somewhere below it. */
  predicate Subtree(s: Tree, t: Tree)
  {
    s == t || (t.Node? && (Subtree(s, t.left) || Subtree(s, t.right)))
  }

  /** `t` with every count set to 1: its shape and values only. */
  function Skeleton(t: Tree): Tree
  {
    match t
    case Leaf => Leaf
    case Node(v, _, l, r) => Node(v, 1, Skeleton(l), Skeleton(r))
  }

  /** createNode: a fresh node holding `v`, added once, with no children. */
  function CreateNode(v: int): (n: Tree)
    ensures Valid(n)
    ensures Size(n) == 1
    ensures Values(n) == {v}
    ensures Contents(n) == multiset{v}
  {
    Node(v, 1, Leaf, Leaf)
  }

  /** The constructor: a tree seeded with one value. */
  function New(seed: int): (t: Tree)
    ensures Valid(t)
    ensures Size(t) == 1
    ensures Contents(t) == multiset{seed}
  {
    CreateNode(seed)
  }

  /** The search shared by add and remove: descend left on `<`, right on `>`,
      stop on a match. The result is the subtree rooted at the matching node,
      or `Leaf` when the search falls off the tree. */
  function Find(t: Tree, v: int): (s: Tree)
    ensures s == Leaf || (s.value == v && Subtree(s, t))
    ensures Values(s) <= Values(t)
    ensures Valid(t) ==> Valid(s)
    ensures Valid(t) ==> (s != Leaf <==> v in Values(t))
  {
    match t
    case Leaf => Leaf
    case Node(x, _, l, r) =>
      if v < x then Find(l, v)
      else if v > x then Find(r, v)
      else t
  }

  /** How many times `v` has been added and is still stored, as read off the
      node the search reaches (0 when it reaches none). */
  function CountOf(t: Tree, v: int): nat
  {
    match Find(t, v)
    case Leaf => 0
    case Node(_, c, _, _) => c
  }

  /** add / addNode: a rootless tree gets `v` as its root; otherwise descend as
      in `Find`, bump the count of a node already holding `v`, or hang a new
      node on the absent child where the search ends. */
  function Insert(t: Tree, v: int): (r: Tree)
    ensures r != Leaf
    ensures Values(r) == Values(t) + {v}
    ensures Contents(r) == Contents(t) + multiset{v}
  {
    match t
    case Leaf => CreateNode(v)
    case Node(x, c, l, rt) =>
      if v < x then Node(x, c, Insert(l, v), rt)
      else if v > x then Node(x, c, l, Insert(rt, v))
      else Node(x, c + 1, l, rt)
  }

  /** A sequence of add calls, in order. */
  function AddAll(t: Tree, s: seq<int>): (r: Tree)
    ensures Values(r) == Values(t) + set x | x in s
    ensures Contents(r) == Contents(t) + multiset(s)
    decreases |s|
  {
    if s == [] then t
    else
      assert s == [s[0]] + s[1..];
      AddAll(Insert(t, s[0]), s[1..])
  }

  /** removeNode: the node and its whole subtree are released and the owning
      pointer is left null. */
  function RemoveNode(t: Tree): (r: Tree)
    ensures Size(r) == 0 && Values(r) == {} && Contents(r) == multiset{}
  {
    Leaf
  }

  /** remove / findRemoveNode: descend as in `Find`; on a match, the matched
      node is removed together with its entire subtree. When the search falls
      off the tree nothing changes. */
  function Remove(t: Tree, v: int): (r: Tree)
    ensures Contents(r) + Contents(Find(t, v)) == Contents(t)
    ensures Values(r) <= Values(t)
    ensures Find(t, v) == Leaf ==> r == t
  {
    match t
    case Leaf => Leaf
    case Node(x, c, l, rt) =>
      if v < x then Node(x, c, Remove(l, v), rt)
      else if v > x then Node(x, c, l, Remove(rt, v))
      else RemoveNode(t)
  }

  /** deleteTree: remove the node at the root, leaving the tree rootless. */
  function Clear(t: Tree): (r: Tree)
    ensures Values(r) == {} && Contents(r) == multiset{} && Size(r) == 0
  {
    RemoveNode(t)
  }
}
